=== FILE: README.md ===
# `.dat` record reassembler

A Dafny model of `convert_dat_to_csv` (Code.py), which converts a `.dat` file
whose records may be broken across physical lines into CSV rows.

The converter reads the file line by line and strips each line of surrounding
whitespace. It drops lines that are then empty and appends every other line to
a pending buffer. When the line just appended holds exactly
`expected_columns - 1` delimiters (default `'¸'`, U+00B8), the converter:

- joins the buffer with the delimiter;
- splits the result on the delimiter;
- writes the pieces as one row;
- clears the buffer.

At end of input, whatever is still buffered is written as one last row.

The model has four modules:

- `DelimitedText` (text.dfy) covers Python's `s.count(d)`, `s.split(d)` and
  `d.join(xs)` for a one-character delimiter. It also proves the lemmas that
  link them: split/join round trips in both directions, the split of a join,
  and delimiter counts.
- `Whitespace` (whitespace.dfy) covers the argument-less `str.strip()`. It
  lists the characters `str.isspace()` accepts by code point and
  characterises stripping as the unique trimmed middle slice between blank
  margins.
- `DatToCsv` (reassembler.dfy) holds the converter:
  - `Step` is the loop body on one stripped line.
  - `Run` folds `Step` over the lines.
  - `Flush` is the end-of-input flush.
  - `Convert` and `Rows` give the whole conversion.
  - `ConvertDatToCsv` is the loop written as the source writes it. It is
    proved to produce `Rows`.

  Each emitted `Record` keeps the stripped lines it was built from beside its
  fields, so that conservation of input can be stated. Reference definitions
  over the input alone (`Kept`, `Closings`, `LoopRecord`) are the partners
  that the lemmas relate the loop to.
- `DatToCsvExamples` (examples.dfy) works through concrete conversions,
  including a value broken across two lines and blank lines between records.

The boundary test looks at the delimiter count of the line just appended, not
at a running total over the buffer (Code.py:18, 24). Delimiters in earlier
buffered lines never trigger or block an emission.
So a record emitted by the boundary test from k > 1 lines has at least
`expected_columns + k - 1` fields, and exactly `expected_columns` when it came
from one line. The record written by the end-of-input flush has no such lower
bound: with three expected columns, the lines `a` and `b` never close and are
flushed together as the two fields `a`, `b`. A flushed record can also exceed
the expected width: `["a|b and", "more|c"]` with three expected columns holds
no line with two delimiters, so both lines are flushed together as the four
fields `a`, `b and`, `more`, `c`.

## Model

| member | source | states |
|---|---|---|
| `DelimitedText.Count` | Code.py:18 | the number of delimiters never exceeds the line length, and is zero exactly when the delimiter does not occur |
| `DelimitedText.Split` | Code.py:27 | `split` yields one more piece than there are delimiters, and no piece contains the delimiter |
| `DelimitedText.SplitAll` | Code.py:26-27 | the splits of a list of fragments, concatenated, have one piece per fragment plus one per delimiter in them, none containing the delimiter |
| `DelimitedText.CountAppend` | Code.py:18 | delimiter counts add up over concatenation |
| `DelimitedText.SplitAround` | Code.py:26-27 | a delimiter placed between two strings separates their splits exactly |
| `DelimitedText.JoinSplit` | Code.py:26-27 | joining the pieces of a split gives back the original string |
| `DelimitedText.SplitJoin` | Code.py:26-27 | splitting a non-empty list joined with the delimiter gives the concatenated splits of its elements, in order |
| `DelimitedText.SplitWithoutDelimiter` | Code.py:27 | a string without the delimiter splits into itself alone |
| `DelimitedText.SplitJoinRoundTrip` | Code.py:26-27 | a non-empty list of delimiter-free strings is recovered from its join |
| `DelimitedText.Join` | Code.py:26 | the joined buffer holds the delimiters of every fragment plus one per gap |
| `Whitespace.IsSpace` | Code.py:11 | the whitespace `strip()` removes includes space, tab, newline, carriage return, vertical tab and form feed, and excludes every visible ASCII character `!`..`~`, the zero-width space and the default delimiter U+00B8 |
| `Whitespace.TrimStart` | Code.py:11 | the leading-whitespace cut is no longer than its input and does not start with whitespace |
| `Whitespace.TrimEnd` | Code.py:11 | the trailing-whitespace cut is no longer than its input and does not end with whitespace |
| `Whitespace.Strip` | Code.py:11 | a stripped line neither starts nor ends with whitespace and is no longer than the line |
| `Whitespace.StripSlice` | Code.py:11 | the stripped line is a contiguous slice of the line whose left and right margins are all whitespace |
| `Whitespace.StripEmpty` | Code.py:11-15 | a line strips to the empty string exactly when it consists of whitespace only |
| `Whitespace.StripUnique` | Code.py:11 | any non-empty trimmed slice with whitespace-only margins is the stripped line, so `Strip` is determined by what it promises |
| `Whitespace.StripIdempotent` | Code.py:11 | stripping a stripped line changes nothing |
| `DatToCsv.Closes` | Code.py:18-24 | a stripped line completes a record exactly when it is non-empty and would on its own split into `expected` fields |
| `DatToCsv.Assemble` | Code.py:26-27 | the fields of a buffer are the splits of its fragments in order, as many as the fragments' delimiters plus the fragments, none containing the delimiter |
| `DatToCsv.Step` | Code.py:11-33 | an empty stripped line changes nothing; otherwise exactly one record is emitted iff that line's own count is `expected - 1`, earlier records are untouched, the new record is the buffer completed by the line together with its split, the line is added exactly once to emitted-plus-buffered fragments, and the buffer is empty after an emission |
| `DatToCsv.Flush` | Code.py:36-39 | a non-empty buffer becomes exactly one final record whose fields are the splits of the buffer, an empty buffer adds nothing, and no fragment is lost |
| `DatToCsv.Run` | Code.py:9-33 | the loop emits exactly one record per input line that closes one |
| `DatToCsv.Convert` | Code.py:9-39 | the converter writes at least one record per closing line and at most one more, the final flush |
| `DatToCsv.FieldsOf` | Code.py:30-39 | the rows written are the records' fields, one row per record, in record order |
| `DatToCsv.Rows` | Code.py:26-39 | one row per record; every row has at least one field and no field contains the delimiter |
| `DatToCsv.RunConserves` | Code.py:9-33 | after any prefix of the input the emitted fragments followed by the buffer are the non-blank stripped lines in order, and one record has been emitted per closing line |
| `DatToCsv.StepConsistent` | Code.py:14-33 | the loop body keeps the invariant: emitted records are closed exactly by their last fragment and the buffer holds only non-closing, non-blank stripped lines |
| `DatToCsv.CloseConsistent` | Code.py:21-33 | emitting the buffer completed by a closing line yields a record in which only the last fragment closes |
| `DatToCsv.BufferConsistent` | Code.py:21-24 | buffering a non-closing line keeps every buffered line non-blank and non-closing |
| `DatToCsv.RunConsistent` | Code.py:9-33 | every record emitted inside the loop ends with the only fragment whose count is `expected - 1`, and the buffer never holds a closing line |
| `DatToCsv.LeftoverEmpty` | Code.py:24-36 | the buffer is empty at end of input exactly when no line was kept or the last kept line closed a record |
| `DatToCsv.ConvertConserves` | Code.py:21-39 | the fragments of all records, in output order, are exactly the non-blank stripped input lines: nothing dropped, nothing duplicated |
| `DatToCsv.ConvertCount` | Code.py:24-39 | the number of records is the number of closing lines, plus one exactly when some line was kept and the last kept line does not close |
| `DatToCsv.NoClosingBelowOne` | Code.py:24-39 | with fewer than one expected column no line closes a record and the whole input yields at most one record |
| `DatToCsv.ConvertArity` | Code.py:26-38 | every record has non-empty fragments and fields equal to their splits, one per fragment plus one per delimiter, none containing the delimiter |
| `DatToCsv.LoopRecordArity` | Code.py:24-27 | a record emitted inside the loop from k fragments has at least `expected + k - 1` fields, and exactly `expected` when it came from one line |
| `DatToCsv.LoopRecordFields` | Code.py:24-27 | the field-count bounds for one record whose last fragment alone holds `expected - 1` delimiters |
| `DatToCsv.CountAllLast` | Code.py:24-27 | the last fragment's delimiters are part of the buffer's total, all of it for a single fragment |
| `DatToCsv.RunOnKept` | Code.py:11-15 | the loop state depends on the non-blank stripped lines only |
| `DatToCsv.KeptAppend` | Code.py:11-21 | the kept lines of a concatenated input are the kept lines of each part |
| `DatToCsv.BlankLineInvisible` | Code.py:11-15 | inserting a whitespace-only line anywhere in the input changes neither the records nor their boundaries |
| `DatToCsv.ConvertDatToCsv` | Code.py:3-39 | the loop, with its buffer reset and its final flush, writes exactly the rows of the functional model |
| `DatToCsvExamples.CleanLine` | Code.py:11-18 | a trimmed line built from delimiter-free fields strips to itself, splits back into those fields and has one delimiter per gap |
| `DatToCsvExamples.FirstLineCloses` | Code.py:9-33 | a first line that closes is emitted at once and leaves the buffer empty |
| `DatToCsvExamples.BothLinesClose` | Code.py:9-33 | two closing lines are emitted one after the other as single-line records |
| `DatToCsvExamples.BothLinesOpen` | Code.py:9-24 | two non-blank lines that do not close both stay in the buffer, in order, and nothing is emitted |
| `DatToCsvExamples.OneClosingLine` | Code.py:11-33 | a single closing line is one row, its split |
| `DatToCsvExamples.TwoClosingLines` | Code.py:11-33 | two closing lines are two rows |
| `DatToCsvExamples.TwoOpenLines` | Code.py:11-39 | two non-blank lines that do not close are flushed together as one row holding both splits |
| `DatToCsvExamples.ShortFlushedRecord` | Code.py:36-39 | the lines `a` and `b` at three columns never close and are flushed as the single row `a`, `b`, two fields below the expected three |
| `DatToCsvExamples.OneCompleteLine` | Code.py:18-30 | a line holding `a`, `b`, `c` separated by two pipe delimiters, with three columns, is the row `a`, `b`, `c` |
| `DatToCsvExamples.SingleColumn` | Code.py:18-30 | with one column the line `x` is the row `x` |
| `DatToCsvExamples.TwoFieldLine` | Code.py:11-18 | a trimmed line of two delimiter-free fields strips to itself, holds one delimiter and splits back into the two fields |
| `DatToCsvExamples.BrokenValue` | Code.py:18-39 | with three columns, two trimmed lines, each of two non-empty delimiter-free fields, close nothing and are flushed as one row of all four fields |
| `DatToCsvExamples.ValueBrokenAcrossLines` | Code.py:18-39 | the lines `a`, pipe, `b and` and `more`, pipe, `c` with three columns are one flushed row of four fields |
| `DatToCsvExamples.PaddedLine` | Code.py:11 | the line ` a|b ` strips to `a|b` |
| `DatToCsvExamples.PaddedLines` | Code.py:11-33 | ` a|b ` then `c|d` at two columns give the rows `a`, `b` and `c`, `d` |
| `DatToCsvExamples.TwoBlanksInvisible` | Code.py:11-15 | two whitespace-only lines interleaved with two others do not affect the result |
| `DatToCsvExamples.BlankLinesDropped` | Code.py:11-15 | an empty line and a tab-only line are dropped from a concrete input |
| `DatToCsvExamples.BlankLinesSkipped` | Code.py:11-33 | `""`, ` a|b `, a tab, `c|d` at two columns give the rows `a`, `b` and `c`, `d` |
| `DatToCsvExamples.DefaultDelimiterFlush` | Code.py:3-39 | with the default delimiter `1¸2` then `3` at three columns is one flushed row `1`, `2`, `3` |

## Left out

- File opening and closing, UTF-8 decoding and the success message (Code.py:4, 41): these are I/O. The input is modelled as a sequence of lines and the output as a sequence of rows.
- The `csv.writer` quoting and escaping (Code.py:5, 30, 39): the library serialiser is not part of this model, so the model stops at the list of field lists handed to `writerow`.
- How Python's file iterator cuts the input into lines (newline translation, a final line without a terminator): the model takes the lines as given. The line terminator is whitespace for `strip()` in any case.
- Delimiters other than a single character: the default is one character, and other delimiters are out of scope. A multi-character delimiter changes what `count`, `split` and `join` mean, and an empty one makes Python's `split` raise.
- Python's `int` is unbounded, like Dafny's, so `expected_columns - 1` needs no overflow modelling. Non-integer `expected_columns` values are outside the model.
- The Streamlit display, login and dashboard files (computed_display.py, team_display.py, insights_display.py, dashboard.py, login.py, app.py): user interface, pandas/JSON loading and charts, not part of the converter.

=== FILE: examples.dfy ===
/**
 Concrete runs of the converter on small inputs. Each one is reduced to a
 general fact about inputs of the same shape (one closing line, two closing
 lines, two lines that do not close), so only the string-level facts are
 worked out on the literals themselves.
 */
module DatToCsvExamples {
  import opened DelimitedText
  import opened Whitespace
  import opened DatToCsv

  /** A line without surrounding whitespace, built from delimiter-free
      fields: stripping leaves it alone, it splits back into its fields, and
      it holds one delimiter per gap. */
  lemma {:induction false} CleanLine(s: string, fields: seq<string>, d: char)
    requires |fields| > 0 && Join(fields, d) == s
    requires forall i :: 0 <= i < |fields| ==> d !in fields[i]
    requires |s| > 0 && Trimmed(s)
    ensures Strip(s) == s
    ensures Split(s, d) == fields
    ensures Count(s, d) == |fields| - 1
  {
    SplitJoinRoundTrip(fields, d);
    StripUnique(s, 0, |s|);
    assert s[0..|s|] == s;
  }

  /** The first line of an input, consumed from the start state. */
  lemma FirstStep(line: string, expected: int, d: char)
    ensures Run([line], expected, d) == Step(Start, Strip(line), expected, d)
  {
    RunSnoc([], line, expected, d);
    assert [] + [line] == [line];
  }

  /** A closing line emits the buffer it completes. */
  lemma StepClose(st: State, s: string, expected: int, d: char)
    requires Closes(s, expected, d)
    ensures var buffer := st.pending + [s];
      Step(st, s, expected, d) == State([], st.emitted + [Record(buffer, Assemble(buffer, d))])
  {
  }

  /** A non-blank line that does not close is buffered. */
  lemma StepOpen(st: State, s: string, expected: int, d: char)
    requires |s| > 0 && !Closes(s, expected, d)
    ensures Step(st, s, expected, d) == State(st.pending + [s], st.emitted)
  {
  }

  /** The record assembled from one line holds that line's split. */
  lemma AssembleOne(s: string, d: char)
    ensures Assemble([s], d) == Split(s, d)
  {
    assert SplitAll([s], d) == Split(s, d) + SplitAll([], d);
  }

  /** The record assembled from two lines holds both splits in order. */
  lemma AssembleTwo(s1: string, s2: string, d: char)
    ensures Assemble([s1, s2], d) == Split(s1, d) + Split(s2, d)
  {
    assert [s1, s2][1..] == [s2];
    assert SplitAll([s2], d) == Split(s2, d) + SplitAll([], d);
  }

  /** The record a single closing line becomes. */
  function Single(s: string, d: char): Record
  {
    Record([s], Assemble([s], d))
  }

  /** A first line that closes a record is emitted at once. */
  lemma FirstLineCloses(line: string, expected: int, d: char)
    requires Closes(Strip(line), expected, d)
    ensures Run([line], expected, d) == State([], [Single(Strip(line), d)])
  {
    var s := Strip(line);
    FirstStep(line, expected, d);
    StepClose(Start, s, expected, d);
    assert [] + [s] == [s];
    assert [] + [Single(s, d)] == [Single(s, d)];
  }

  /** Two closing lines are emitted one after the other. */
  lemma BothLinesClose(l1: string, l2: string, expected: int, d: char)
    requires Closes(Strip(l1), expected, d) && Closes(Strip(l2), expected, d)
    ensures Run([l1, l2], expected, d) == State([], [Single(Strip(l1), d), Single(Strip(l2), d)])
  {
    var s2 := Strip(l2);
    var r1, r2 := Single(Strip(l1), d), Single(s2, d);
    FirstLineCloses(l1, expected, d);
    RunSnoc([l1], l2, expected, d);
    assert [l1] + [l2] == [l1, l2];
    StepClose(State([], [r1]), s2, expected, d);
    assert [] + [s2] == [s2];
    assert [r1] + [r2] == [r1, r2];
  }

  /** A single line that closes a record is one row: its split. */
  lemma OneClosingLine(line: string, expected: int, d: char)
    requires Closes(Strip(line), expected, d)
    ensures Rows([line], expected, d) == [Split(Strip(line), d)]
  {
    var s := Strip(line);
    FirstLineCloses(line, expected, d);
    calc {
      Rows([line], expected, d);
    == { FlushEmpty(State([], [Single(s, d)]), d); }
      FieldsOf([Single(s, d)]);
    == { AssembleOne(s, d); }
      [Split(s, d)];
    }
  }

  /** Two lines that each close a record are two rows. */
  lemma TwoClosingLines(l1: string, l2: string, expected: int, d: char)
    requires Closes(Strip(l1), expected, d) && Closes(Strip(l2), expected, d)
    ensures Rows([l1, l2], expected, d) == [Split(Strip(l1), d), Split(Strip(l2), d)]
  {
    var s1, s2 := Strip(l1), Strip(l2);
    var r1, r2 := Single(s1, d), Single(s2, d);
    BothLinesClose(l1, l2, expected, d);
    calc {
      Rows([l1, l2], expected, d);
    == { FlushEmpty(State([], [r1, r2]), d); }
      FieldsOf([r1, r2]);
      [r1.fields, r2.fields];
    == { AssembleOne(s1, d); AssembleOne(s2, d); }
      [Split(s1, d), Split(s2, d)];
    }
  }

  /** An empty buffer flushes to the records already emitted. */
  lemma FlushEmpty(st: State, d: char)
    requires st.pending == []
    ensures Flush(st, d) == st.emitted
  {
  }

  /** Two non-blank lines that do not close stay buffered. */
  lemma BothLinesOpen(l1: string, l2: string, expected: int, d: char)
    requires |Strip(l1)| > 0 && Count(Strip(l1), d) != expected - 1
    requires |Strip(l2)| > 0 && Count(Strip(l2), d) != expected - 1
    ensures Run([l1, l2], expected, d) == State([Strip(l1), Strip(l2)], [])
  {
    var s1, s2 := Strip(l1), Strip(l2);
    assert Run([l1], expected, d) == State([s1], []) by {
      FirstStep(l1, expected, d);
      StepOpen(Start, s1, expected, d);
      assert [] + [s1] == [s1];
    }
    RunSnoc([l1], l2, expected, d);
    assert [l1] + [l2] == [l1, l2];
    StepOpen(State([s1], []), s2, expected, d);
    assert [s1] + [s2] == [s1, s2];
  }

  /** Two non-blank lines neither of which closes a record are flushed
      together as one row: the splits of both, in order. */
  lemma TwoOpenLines(l1: string, l2: string, expected: int, d: char)
    requires |Strip(l1)| > 0 && Count(Strip(l1), d) != expected - 1
    requires |Strip(l2)| > 0 && Count(Strip(l2), d) != expected - 1
    ensures Rows([l1, l2], expected, d) == [Split(Strip(l1), d) + Split(Strip(l2), d)]
  {
    var s1, s2 := Strip(l1), Strip(l2);
    BothLinesOpen(l1, l2, expected, d);
    var r := Record([s1, s2], Assemble([s1, s2], d));
    assert Convert([l1, l2], expected, d) == [r] by {
      assert [] + [r] == [r];
    }
    AssembleTwo(s1, s2, d);
  }

  /** The record written by the end-of-input flush has no lower bound on its
      fields: two one-field lines at three columns never close and come out
      as one row of two fields, fewer than the three expected. */
  lemma ShortFlushedRecord()
    ensures Rows(["a", "b"], 3, '|') == [["a", "b"]]
  {
    OneFieldLines();
    TwoOpenLines("a", "b", 3, '|');
    assert ["a"] + ["b"] == ["a", "b"];
  }

  /** Proof helper: the two lines of `ShortFlushedRecord` strip to themselves,
      hold no delimiter and split into themselves. */
  lemma OneFieldLines()
    ensures Strip("a") == "a" && Count("a", '|') == 0 && Split("a", '|') == ["a"]
    ensures Strip("b") == "b" && Count("b", '|') == 0 && Split("b", '|') == ["b"]
  {
    CleanLine("a", ["a"], '|');
    CleanLine("b", ["b"], '|');
  }

  /** A single line with `expected - 1` delimiters is one record of
      `expected` fields. */
  lemma OneCompleteLine()
    ensures Rows(["a|b|c"], 3, '|') == [["a", "b", "c"]]
  {
    CleanLine("a|b|c", ["a", "b", "c"], '|');
    OneClosingLine("a|b|c", 3, '|');
  }

  /** One column: the line `x` closes a record on its own. */
  lemma SingleColumn()
    ensures Rows(["x"], 1, '|') == [["x"]]
  {
    CleanLine("x", ["x"], '|');
    OneClosingLine("x", 1, '|');
  }

  /** Two strings joined with the delimiter between them. */
  lemma JoinTwo(x: string, y: string, d: char)
    ensures Join([x, y], d) == x + [d] + y
  {
    assert [x, y][1..] == [y];
  }

  /** A line of two delimiter-free fields with no surrounding whitespace
      strips to itself, holds one delimiter and splits into the two fields. */
  lemma TwoFieldLine(x: string, y: string, d: char)
    requires |x| > 0 && |y| > 0 && d !in x && d !in y
    requires !IsSpace(x[0]) && !IsSpace(y[|y| - 1])
    ensures var s := x + [d] + y;
      Strip(s) == s && Split(s, d) == [x, y] && Count(s, d) == 1
  {
    var s := x + [d] + y;
    JoinTwo(x, y, d);
    assert s[0] == x[0] && s[|s| - 1] == y[|y| - 1];
    CleanLine(s, [x, y], d);
  }

  /** A value broken across two lines, in general: with three expected
      columns, two trimmed lines, each of two non-empty delimiter-free fields,
      close nothing inside the loop and are flushed together as one record of
      four fields. */
  lemma BrokenValue(x1: string, x2: string, y1: string, y2: string, d: char)
    requires |x1| > 0 && |x2| > 0 && d !in x1 && d !in x2
    requires !IsSpace(x1[0]) && !IsSpace(x2[|x2| - 1])
    requires |y1| > 0 && |y2| > 0 && d !in y1 && d !in y2
    requires !IsSpace(y1[0]) && !IsSpace(y2[|y2| - 1])
    ensures Rows([x1 + [d] + x2, y1 + [d] + y2], 3, d) == [[x1, x2, y1, y2]]
  {
    var l1, l2 := x1 + [d] + x2, y1 + [d] + y2;
    TwoFieldLine(x1, x2, d);
    TwoFieldLine(y1, y2, d);
    TwoOpenLines(l1, l2, 3, d);
    assert [x1, x2] + [y1, y2] == [x1, x2, y1, y2];
  }

  /** A value broken across two lines. Neither line holds two delimiters on
      its own, so nothing is emitted inside the loop and the end-of-input
      flush emits both lines as one record. Joining puts a delimiter where the
      line break was, so the record has four fields, not three. */
  lemma ValueBrokenAcrossLines()
    ensures Rows(["a|b and", "more|c"], 3, '|') == [["a", "b and", "more", "c"]]
  {
    assert "a" + ['|'] + "b and" == "a|b and";
    assert "more" + ['|'] + "c" == "more|c";
    BrokenValue("a", "b and", "more", "c", '|');
  }

  /** The line ` a|b ` strips to `a|b`. */
  lemma PaddedLine()
    ensures Strip(" a|b ") == "a|b"
  {
    var s := " a|b ";
    StripUnique(s, 1, 4);
    assert s[1..4] == "a|b";
  }

  /** ` a|b ` is stripped before its delimiter is counted, so it closes a
      two-column record just as `c|d` does. */
  lemma PaddedLines()
    ensures Rows([" a|b ", "c|d"], 2, '|') == [["a", "b"], ["c", "d"]]
  {
    PaddedClosing();
    ClosingRows(" a|b ", "c|d", ["a", "b"], ["c", "d"], 2, '|');
  }

  /** Proof helper: both lines of `PaddedLines` close a two-column record on
      their own. */
  lemma PaddedClosing()
    ensures Strip(" a|b ") == "a|b" && Closes("a|b", 2, '|') && Split("a|b", '|') == ["a", "b"]
    ensures Strip("c|d") == "c|d" && Closes("c|d", 2, '|') && Split("c|d", '|') == ["c", "d"]
  {
    PaddedLine();
    CleanLine("a|b", ["a", "b"], '|');
    CleanLine("c|d", ["c", "d"], '|');
  }

  /** Proof helper: `TwoClosingLines` with the two rows given, so that a
      concrete instance need not unfold `Split`. */
  lemma ClosingRows(l1: string, l2: string, f1: seq<string>, f2: seq<string>, expected: int, d: char)
    requires Closes(Strip(l1), expected, d) && Split(Strip(l1), d) == f1
    requires Closes(Strip(l2), expected, d) && Split(Strip(l2), d) == f2
    ensures Rows([l1, l2], expected, d) == [f1, f2]
  {
    TwoClosingLines(l1, l2, expected, d);
  }

  /** Two blank lines around and between two other lines are invisible. */
  lemma TwoBlanksInvisible(b1: string, x: string, b2: string, y: string, expected: int, d: char)
    requires Blank(b1) && Blank(b2)
    ensures Convert([b1, x, b2, y], expected, d) == Convert([x, y], expected, d)
  {
    DropBlank([b1, x, b2, y], [x, b2, y], [], b1, [x, b2, y], expected, d);
    DropBlank([x, b2, y], [x, y], [x], b2, [y], expected, d);
  }

  /** Proof helper: `BlankLineInvisible` for an input and its shortening
      given whole, so that a concrete instance need not rebuild them. */
  lemma DropBlank(lines: seq<string>, shorter: seq<string>, before: seq<string>, blank: string, after: seq<string>,
                  expected: int, d: char)
    requires Blank(blank) && lines == before + [blank] + after && shorter == before + after
    ensures Convert(lines, expected, d) == Convert(shorter, expected, d)
  {
    BlankLineInvisible(before, blank, after, expected, d);
  }

  /** Removing the two blank lines leaves the conversion unchanged. */
  lemma BlankLinesDropped()
    ensures Convert(["", " a|b ", "\t", "c|d"], 2, '|') == Convert([" a|b ", "c|d"], 2, '|')
  {
    assert Blank("\t") by {
      assert "\t"[0] == '\t';
    }
    TwoBlanksInvisible("", " a|b ", "\t", "c|d", 2, '|');
  }

  /** The blank lines `""` and a tab are skipped, and ` a|b ` is stripped. */
  lemma BlankLinesSkipped()
    ensures Rows(["", " a|b ", "\t", "c|d"], 2, '|') == [["a", "b"], ["c", "d"]]
  {
    BlankLinesDropped();
    PaddedLines();
  }

  /** With the default delimiter: the first line holds one delimiter where two
      are expected and the second holds none, so both are flushed together at
      end of input as one three-field record. */
  lemma DefaultDelimiterFlush()
    ensures Rows(["1\U{00B8}2", "3"], 3, DefaultDelimiter) == [["1", "2", "3"]]
  {
    assert "1" + [DefaultDelimiter] + "2" == "1\U{00B8}2";
    TwoFieldLine("1", "2", DefaultDelimiter);
    CleanLine("3", ["3"], DefaultDelimiter);
    TwoOpenLines("1\U{00B8}2", "3", 3, DefaultDelimiter);
    assert ["1", "2"] + ["3"] == ["1", "2", "3"];
  }
}

=== FILE: reassembler.dfy ===
/**
 Model of `convert_dat_to_csv`: the reassembly of `.dat` records that were
 broken across physical lines.

 Each physical line is stripped; blank lines are dropped; every other line is
 appended to a pending buffer. When the line just appended holds exactly
 `expected - 1` delimiters (a test on that line alone, not on the buffer), the
 buffer is joined with the delimiter, split on it, emitted as one row, and
 cleared. Whatever is still buffered at end of input is emitted as a last row.

 Each emitted `Record` keeps the stripped lines it was built from next to its
 fields, so that conservation of input can be stated; the rows the CSV writer
 receives are the `fields` parts (`Rows`).
 */
module DatToCsv {
  import opened DelimitedText
  import opened Whitespace

  /** The converter's default field delimiter, U+00B8 CEDILLA. */
  const DefaultDelimiter: char := '\U{00B8}'

  /** One emitted row, together with the stripped lines it was assembled from. */
  datatype Record = Record(fragments: seq<string>, fields: seq<string>)

  /** The loop state: the lines buffered for the record being assembled, and
      the records emitted so far. */
  datatype State = State(pending: seq<string>, emitted: seq<Record>)

  /** Nothing buffered, nothing emitted. */
  const Start: State := State([], [])

  /** What a stripped line contributes to the buffer: itself, or nothing when
      it is empty. */
  function Piece(s: string): seq<string>
  {
    if |s| == 0 then [] else [s]
  }

  /** The stripped line is non-empty and holds exactly `expected - 1`
      delimiters, so appending it completes a record; equivalently, the line
      on its own would split into exactly `expected` fields. */
  function Closes(s: string, expected: int, d: char): (b: bool)
    ensures b <==> |s| > 0 && |Split(s, d)| == expected
  {
    |s| > 0 && Count(s, d) == expected - 1
  }

  /** The fields of a record: the buffered lines joined with the delimiter and
      split on it again. */
  function Assemble(fragments: seq<string>, d: char): (fields: seq<string>)
    ensures |fragments| > 0 ==> fields == SplitAll(fragments, d)
    ensures |fragments| > 0 ==> |fields| == CountAll(fragments, d) + |fragments|
    ensures forall i :: 0 <= i < |fields| ==> d !in fields[i]
  {
    if |fragments| > 0 then SplitJoin(fragments, d); Split(Join(fragments, d), d)
    else Split(Join(fragments, d), d)
  }

  /** All fragments of a list of records, in emission order. */
  function FragmentsOf(records: seq<Record>): seq<string>
  {
    if |records| == 0 then []
    else FragmentsOf(records[..|records| - 1]) + records[|records| - 1].fragments
  }

  /** The rows handed to the CSV writer. */
  function FieldsOf(records: seq<Record>): (rows: seq<seq<string>>)
    ensures |rows| == |records|
    ensures forall i :: 0 <= i < |rows| ==> rows[i] == records[i].fields
  {
    if |records| == 0 then []
    else FieldsOf(records[..|records| - 1]) + [records[|records| - 1].fields]
  }

  /** The loop body for one input line, `s` being that line already stripped.
      An empty line changes nothing; otherwise the line is buffered and, if it
      closes a record, the buffer is emitted and cleared. Earlier records are
      never touched, and no buffered line is lost or repeated. */
  function Step(st: State, s: string, expected: int, d: char): (r: State)
    ensures |s| == 0 ==> r == st
    ensures |r.emitted| == |st.emitted| + (if Closes(s, expected, d) then 1 else 0)
    ensures r.emitted[..|st.emitted|] == st.emitted
    ensures Closes(s, expected, d) ==>
      r.emitted[|st.emitted|] == Record(st.pending + [s], Assemble(st.pending + [s], d))
    ensures FragmentsOf(r.emitted) + r.pending == FragmentsOf(st.emitted) + st.pending + Piece(s)
    ensures Closes(s, expected, d) ==> r.pending == []
  {
    if |s| == 0 then st
    else
      var buffer := st.pending + [s];
      if Count(s, d) == expected - 1 then
        var rec := Record(buffer, Assemble(buffer, d));
        var emitted := st.emitted + [rec];
        assert emitted[..|st.emitted|] == st.emitted;
        FragmentsOfAppend(st.emitted, rec);
        State([], emitted)
      else
        State(buffer, st.emitted)
  }

  /** The loop state after the given physical lines have been consumed. */
  function Run(lines: seq<string>, expected: int, d: char): (st: State)
    ensures |st.emitted| == Closings(lines, expected, d)
  {
    if |lines| == 0 then Start
    else Step(Run(lines[..|lines| - 1], expected, d), Strip(lines[|lines| - 1]), expected, d)
  }

  /** The end-of-input flush: a non-empty buffer becomes one last record, and
      an empty one adds nothing. */
  function Flush(st: State, d: char): (records: seq<Record>)
    ensures |records| == |st.emitted| + (if st.pending == [] then 0 else 1)
    ensures records[..|st.emitted|] == st.emitted
    ensures FragmentsOf(records) == FragmentsOf(st.emitted) + st.pending
    ensures st.pending != [] ==> records[|st.emitted|].fields == SplitAll(st.pending, d)
  {
    if st.pending == [] then
      assert st.emitted[..|st.emitted|] == st.emitted;
      st.emitted
    else
      var rec := Record(st.pending, Assemble(st.pending, d));
      var records := st.emitted + [rec];
      assert records[..|st.emitted|] == st.emitted;
      FragmentsOfAppend(st.emitted, rec);
      records
  }

  /** Every record the converter produces for `lines`, in output order. */
  function Convert(lines: seq<string>, expected: int, d: char): (records: seq<Record>)
    ensures Closings(lines, expected, d) <= |records| <= Closings(lines, expected, d) + 1
  {
    Flush(Run(lines, expected, d), d)
  }

  /** The rows the converter writes for `lines`: one per record, none of them
      empty, and no field holding the delimiter. */
  function Rows(lines: seq<string>, expected: int, d: char): (rows: seq<seq<string>>)
    ensures |rows| == |Convert(lines, expected, d)|
    ensures forall i :: 0 <= i < |rows| ==> |rows[i]| > 0
    ensures forall i, f :: 0 <= i < |rows| && 0 <= f < |rows[i]| ==> d !in rows[i][f]
  {
    var records := Convert(lines, expected, d);
    assert forall i :: 0 <= i < |records| ==>
      |records[i].fields| > 0 && forall f :: 0 <= f < |records[i].fields| ==> d !in records[i].fields[f]
    by {
      forall i | 0 <= i < |records| {
        ConvertArity(lines, expected, d, i);
      }
    }
    FieldsOf(records)
  }

  // ---------------------------------------------------------------------------
  // Reference definitions over the input alone
  // ---------------------------------------------------------------------------

  /** The non-blank input lines, stripped, in input order. */
  function Kept(lines: seq<string>): seq<string>
  {
    if |lines| == 0 then []
    else Kept(lines[..|lines| - 1]) + Piece(Strip(lines[|lines| - 1]))
  }

  /** The number of input lines that close a record. */
  function Closings(lines: seq<string>, expected: int, d: char): nat
  {
    if |lines| == 0 then 0
    else Closings(lines[..|lines| - 1], expected, d) + (if Closes(Strip(lines[|lines| - 1]), expected, d) then 1 else 0)
  }

  /** A non-blank stripped line: what the buffer may hold. */
  predicate IsFragment(s: string)
  {
    |s| > 0 && Trimmed(s)
  }

  /** A record emitted inside the loop: a run of fragments of which only the
      last one holds `expected - 1` delimiters, with the fields assembled from
      them. */
  predicate LoopRecord(rec: Record, expected: int, d: char)
  {
    var n := |rec.fragments|;
    && n > 0
    && (forall k :: 0 <= k < n ==> IsFragment(rec.fragments[k]))
    && Count(rec.fragments[n - 1], d) == expected - 1
    && (forall k :: 0 <= k < n - 1 ==> Count(rec.fragments[k], d) != expected - 1)
    && rec.fields == Assemble(rec.fragments, d)
  }

  /** What the loop keeps true of its state: every emitted record is a
      `LoopRecord`, and the buffer holds fragments none of which closes. */
  predicate Consistent(st: State, expected: int, d: char)
  {
    && (forall i :: 0 <= i < |st.emitted| ==> LoopRecord(st.emitted[i], expected, d))
    && (forall k :: 0 <= k < |st.pending| ==> IsFragment(st.pending[k]))
    && (forall k :: 0 <= k < |st.pending| ==> Count(st.pending[k], d) != expected - 1)
  }

  // ---------------------------------------------------------------------------
  // Properties of the loop
  // ---------------------------------------------------------------------------

  lemma FragmentsOfAppend(records: seq<Record>, rec: Record)
    ensures FragmentsOf(records + [rec]) == FragmentsOf(records) + rec.fragments
  {
    assert (records + [rec])[..|records|] == records;
  }

  /** Consuming one more line is one more step. */
  lemma RunSnoc(lines: seq<string>, line: string, expected: int, d: char)
    ensures Run(lines + [line], expected, d) == Step(Run(lines, expected, d), Strip(line), expected, d)
  {
    assert (lines + [line])[..|lines|] == lines;
  }

  /** The loop consumes the non-blank stripped lines in order and keeps every
      one of them exactly once, in an emitted record or in the buffer; it
      emits one record per closing line. */
  lemma {:induction false} RunConserves(lines: seq<string>, expected: int, d: char)
    ensures var st := Run(lines, expected, d);
      && FragmentsOf(st.emitted) + st.pending == Kept(lines)
      && |st.emitted| == Closings(lines, expected, d)
    decreases |lines|
  {
    if |lines| > 0 {
      RunConserves(lines[..|lines| - 1], expected, d);
    }
  }

  /** A step from a consistent state leads to a consistent state. */
  lemma {:induction false} StepConsistent(st: State, s: string, expected: int, d: char)
    requires Consistent(st, expected, d)
    requires |s| == 0 || Trimmed(s)
    ensures Consistent(Step(st, s, expected, d), expected, d)
  {
    if |s| > 0 {
      var buffer := st.pending + [s];
      if Count(s, d) == expected - 1 {
        assert Step(st, s, expected, d) == State([], st.emitted + [Record(buffer, Assemble(buffer, d))]);
        CloseConsistent(st, s, expected, d);
      } else {
        assert Step(st, s, expected, d) == State(buffer, st.emitted);
        BufferConsistent(st, s, expected, d);
      }
    }
  }

  /** Emitting the buffer completed by a closing fragment keeps the state
      consistent. */
  lemma {:induction false} CloseConsistent(st: State, s: string, expected: int, d: char)
    requires Consistent(st, expected, d)
    requires IsFragment(s) && Count(s, d) == expected - 1
    ensures var buffer := st.pending + [s];
      Consistent(State([], st.emitted + [Record(buffer, Assemble(buffer, d))]), expected, d)
  {
    var buffer := st.pending + [s];
    var rec := Record(buffer, Assemble(buffer, d));
    var emitted := st.emitted + [rec];
    assert LoopRecord(rec, expected, d) by {
      assert buffer[|buffer| - 1] == s;
      assert forall k :: 0 <= k < |buffer| - 1 ==> buffer[k] == st.pending[k];
    }
    forall i | 0 <= i < |emitted| ensures LoopRecord(emitted[i], expected, d) {
      if i < |st.emitted| {
        assert emitted[i] == st.emitted[i];
      }
    }
  }

  /** Buffering a fragment that does not close keeps the state consistent. */
  lemma {:induction false} BufferConsistent(st: State, s: string, expected: int, d: char)
    requires Consistent(st, expected, d)
    requires IsFragment(s) && Count(s, d) != expected - 1
    ensures Consistent(State(st.pending + [s], st.emitted), expected, d)
  {
    var buffer := st.pending + [s];
    assert forall k :: 0 <= k < |st.pending| ==> buffer[k] == st.pending[k];
    assert buffer[|buffer| - 1] == s;
  }

  /** Every record emitted inside the loop is a `LoopRecord`, and the buffer
      only ever holds non-blank stripped lines none of which closes a record. */
  lemma {:induction false} RunConsistent(lines: seq<string>, expected: int, d: char)
    ensures Consistent(Run(lines, expected, d), expected, d)
    decreases |lines|
  {
    if |lines| > 0 {
      RunConsistent(lines[..|lines| - 1], expected, d);
      StepConsistent(Run(lines[..|lines| - 1], expected, d), Strip(lines[|lines| - 1]), expected, d);
    }
  }

  /** The buffer is left empty at end of input exactly when no line was kept or
      the last kept line closed a record. */
  lemma {:induction false} LeftoverEmpty(lines: seq<string>, expected: int, d: char)
    ensures var kept := Kept(lines);
      Run(lines, expected, d).pending == [] <==>
        (kept == [] || Count(kept[|kept| - 1], d) == expected - 1)
    decreases |lines|
  {
    if |lines| > 0 {
      var prefix := lines[..|lines| - 1];
      var s := Strip(lines[|lines| - 1]);
      LeftoverEmpty(prefix, expected, d);
      assert Kept(lines) == Kept(prefix) + Piece(s);
      if |s| > 0 {
        assert Kept(lines)[|Kept(lines)| - 1] == s;
      }
    }
  }

  // ---------------------------------------------------------------------------
  // Properties of the whole conversion
  // ---------------------------------------------------------------------------

  /** Conservation and order: the fragments of all records, in output order,
      are exactly the non-blank stripped input lines; nothing is dropped or
      duplicated. */
  lemma {:induction false} ConvertConserves(lines: seq<string>, expected: int, d: char)
    ensures FragmentsOf(Convert(lines, expected, d)) == Kept(lines)
  {
    RunConserves(lines, expected, d);
  }

  /** One record per closing line, plus one more exactly when some line was
      kept and the last kept line did not close a record. */
  lemma {:induction false} ConvertCount(lines: seq<string>, expected: int, d: char)
    ensures var kept := Kept(lines);
      |Convert(lines, expected, d)| ==
        Closings(lines, expected, d) + (if kept == [] || Count(kept[|kept| - 1], d) == expected - 1 then 0 else 1)
  {
    LeftoverEmpty(lines, expected, d);
  }

  /** With fewer than one expected column no line can close a record, so the
      whole input comes out as at most one record. */
  lemma {:induction false} NoClosingBelowOne(lines: seq<string>, expected: int, d: char)
    requires expected < 1
    ensures Closings(lines, expected, d) == 0
    ensures |Convert(lines, expected, d)| <= 1
    decreases |lines|
  {
    if |lines| > 0 {
      NoClosingBelowOne(lines[..|lines| - 1], expected, d);
    }
    RunConserves(lines, expected, d);
  }

  /** Arity of every record: its fields are the delimiter-free pieces of its
      fragments, one more per fragment than the delimiters they hold. */
  lemma ConvertArity(lines: seq<string>, expected: int, d: char, i: nat)
    requires i < |Convert(lines, expected, d)|
    ensures var rec := Convert(lines, expected, d)[i];
      && |rec.fragments| > 0
      && rec.fields == SplitAll(rec.fragments, d)
      && |rec.fields| == CountAll(rec.fragments, d) + |rec.fragments|
      && (forall f :: 0 <= f < |rec.fields| ==> d !in rec.fields[f])
  {
    var st := Run(lines, expected, d);
    if i < |st.emitted| {
      assert LoopRecord(st.emitted[i], expected, d) by {
        RunConsistent(lines, expected, d);
      }
      assert Convert(lines, expected, d)[i] == st.emitted[i];
    }
  }

  /** A record emitted inside the loop from k lines has at least
      `expected + k - 1` fields, and exactly `expected` when it came from a
      single line: the closing line alone supplies `expected` fields. */
  lemma LoopRecordArity(lines: seq<string>, expected: int, d: char, i: nat)
    requires i < Closings(lines, expected, d)
    ensures i < |Convert(lines, expected, d)|
    ensures var rec := Convert(lines, expected, d)[i];
      && |rec.fields| >= expected + |rec.fragments| - 1
      && (|rec.fragments| == 1 ==> |rec.fields| == expected)
  {
    RunConserves(lines, expected, d);
    RunConsistent(lines, expected, d);
    var st := Run(lines, expected, d);
    var rec := st.emitted[i];
    assert Convert(lines, expected, d)[i] == rec;
    LoopRecordFields(rec, expected, d);
  }

  /** The field count of one `LoopRecord`. */
  lemma LoopRecordFields(rec: Record, expected: int, d: char)
    requires LoopRecord(rec, expected, d)
    ensures |rec.fields| >= expected + |rec.fragments| - 1
    ensures |rec.fragments| == 1 ==> |rec.fields| == expected
  {
    CountAllLast(rec.fragments, d);
  }

  /** The delimiters of the last element are part of the total. */
  lemma {:induction false} CountAllLast(parts: seq<string>, d: char)
    requires |parts| > 0
    ensures CountAll(parts, d) >= Count(parts[|parts| - 1], d)
    ensures |parts| == 1 ==> CountAll(parts, d) == Count(parts[0], d)
    decreases |parts|
  {
    if |parts| > 1 {
      CountAllLast(parts[1..], d);
      assert parts[1..][|parts[1..]| - 1] == parts[|parts| - 1];
    }
  }

  /** The loop state depends on the non-blank stripped lines only. */
  lemma {:induction false} RunOnKept(lines: seq<string>, expected: int, d: char)
    ensures Run(Kept(lines), expected, d) == Run(lines, expected, d)
    decreases |lines|
  {
    if |lines| > 0 {
      var prefix := lines[..|lines| - 1];
      var line := lines[|lines| - 1];
      RunOnKept(prefix, expected, d);
      var kept := Kept(prefix);
      var s := Strip(line);
      if |s| > 0 {
        assert Kept(lines) == kept + [s];
        RunSnoc(kept, s, expected, d);
        StripIdempotent(line);
      } else {
        assert Kept(lines) == kept;
      }
    }
  }

  lemma KeptSnoc(lines: seq<string>, line: string)
    ensures Kept(lines + [line]) == Kept(lines) + Piece(Strip(line))
  {
    assert (lines + [line])[..|lines|] == lines;
  }

  lemma {:induction false} KeptAppend(a: seq<string>, b: seq<string>)
    ensures Kept(a + b) == Kept(a) + Kept(b)
    decreases |b|
  {
    if |b| == 0 {
      assert a + b == a;
    } else {
      var b', last := b[..|b| - 1], b[|b| - 1];
      var p := Piece(Strip(last));
      calc {
        Kept(a + b);
      == { assert a + b == (a + b') + [last]; KeptSnoc(a + b', last); }
        Kept(a + b') + p;
      == { KeptAppend(a, b'); }
        Kept(a) + Kept(b') + p;
      == { assert b == b' + [last]; KeptSnoc(b', last); }
        Kept(a) + Kept(b);
      }
    }
  }

  /** Blank and whitespace-only lines are invisible: removing one anywhere in
      the input changes neither the records nor their boundaries. */
  lemma BlankLineInvisible(before: seq<string>, blank: string, after: seq<string>, expected: int, d: char)
    requires Blank(blank)
    ensures Convert(before + [blank] + after, expected, d) == Convert(before + after, expected, d)
  {
    var with := before + [blank] + after;
    var without := before + after;
    assert Kept([blank]) == [] by {
      StripEmpty(blank);
      assert [blank][..0] == [];
    }
    assert Kept(with) == Kept(without) by {
      KeptAppend(before + [blank], after);
      KeptAppend(before, [blank]);
      KeptAppend(before, after);
    }
    RunOnKept(with, expected, d);
    RunOnKept(without, expected, d);
  }

  // ---------------------------------------------------------------------------
  // The converter as a loop
  // ---------------------------------------------------------------------------

  /** The converter's loop, written as the source writes it; the rows it
      produces are those of the functional model. */
  method ConvertDatToCsv(lines: seq<string>, expected: int, d: char) returns (rows: seq<seq<string>>)
    ensures rows == Rows(lines, expected, d)
  {
    var current: seq<string> := [];
    rows := [];
    for i := 0 to |lines|
      invariant current == Run(lines[..i], expected, d).pending
      invariant rows == FieldsOf(Run(lines[..i], expected, d).emitted)
    {
      var stripped := Strip(lines[i]);
      ghost var st := Run(lines[..i], expected, d);
      assert Run(lines[..i + 1], expected, d) == Step(st, stripped, expected, d) by {
        assert lines[..i + 1] == lines[..i] + [lines[i]];
        RunSnoc(lines[..i], lines[i], expected, d);
      }
      if |stripped| == 0 {
        continue;
      }
      var delimiterCount := Count(stripped, d);
      current := current + [stripped];
      if delimiterCount == expected - 1 {
        var fields := Split(Join(current, d), d);
        FieldsOfAppend(st.emitted, Record(current, fields));
        rows := rows + [fields];
        current := [];
      }
    }
    assert lines[..|lines|] == lines;
    if current != [] {
      var fields := Split(Join(current, d), d);
      FieldsOfAppend(Run(lines, expected, d).emitted, Record(current, fields));
      rows := rows + [fields];
    }
  }

  lemma FieldsOfAppend(records: seq<Record>, rec: Record)
    ensures FieldsOf(records + [rec]) == FieldsOf(records) + [rec.fields]
  {
    assert (records + [rec])[..|records|] == records;
  }
}

=== FILE: text.dfy ===
/**
 This module models the three Python string operations the `.dat` converter
 relies on, specialised to a one-character delimiter `d`:
 - `Count(s, d)`  is `s.count(d)`,
 - `Split(s, d)`  is `s.split(d)`,
 - `Join(xs, d)`  is `d.join(xs)`,
 together with the facts that link them.
 */
module DelimitedText {

  /** Number of occurrences of `d` in `s`. */
  function Count(s: string, d: char): (n: nat)
    ensures n <= |s|
    ensures n == 0 <==> d !in s
  {
    if |s| == 0 then 0
    else (if s[0] == d then 1 else 0) + Count(s[1..], d)
  }

  /** The pieces of `s` between consecutive occurrences of `d`, in order.
      Like Python's `str.split` with an explicit separator, empty pieces are
      kept, so the empty string splits into one empty piece. */
  function Split(s: string, d: char): (parts: seq<string>)
    ensures |parts| == Count(s, d) + 1
    ensures forall i :: 0 <= i < |parts| ==> d !in parts[i]
  {
    if |s| == 0 then [""]
    else
      Prepend(s[0], Split(s[1..], d), d)
  }

  /** The elements of `parts` glued together with one `d` between neighbours,
      so the result holds the delimiters of every element plus one per gap. */
  function Join(parts: seq<string>, d: char): (s: string)
    ensures |parts| > 0 ==> Count(s, d) == CountAll(parts, d) + |parts| - 1
    decreases |parts|
  {
    if |parts| == 0 then ""
    else if |parts| == 1 then parts[0]
    else
      var rest := Join(parts[1..], d);
      CountAppend(parts[0] + [d], rest, d);
      CountAppend(parts[0], [d], d);
      parts[0] + [d] + rest
  }

  /** Total number of `d` over all elements of `parts`. */
  function CountAll(parts: seq<string>, d: char): nat
  {
    if |parts| == 0 then 0 else Count(parts[0], d) + CountAll(parts[1..], d)
  }

  /** The concatenation of the splits of every element of `parts`. */
  function SplitAll(parts: seq<string>, d: char): (r: seq<string>)
    ensures |r| == CountAll(parts, d) + |parts|
    ensures forall i :: 0 <= i < |r| ==> d !in r[i]
  {
    if |parts| == 0 then [] else Split(parts[0], d) + SplitAll(parts[1..], d)
  }

  lemma {:induction false} CountAppend(a: string, b: string, d: char)
    ensures Count(a + b, d) == Count(a, d) + Count(b, d)
    decreases |a|
  {
    if |a| > 0 {
      assert (a + b)[1..] == a[1..] + b;
      CountAppend(a[1..], b, d);
    } else {
      assert a + b == b;
    }
  }

  /** The split of a string whose first character is `c` and whose rest
      splits into `parts`: a delimiter opens a new empty piece, any other
      character extends the first piece. */
  function Prepend(c: char, parts: seq<string>, d: char): seq<string>
    requires |parts| > 0
  {
    if c == d then [""] + parts else [[c] + parts[0]] + parts[1..]
  }

  /** Prepending a character only touches the first piece. */
  lemma PrependAppend(c: char, x: seq<string>, y: seq<string>, d: char)
    requires |x| > 0
    ensures Prepend(c, x + y, d) == Prepend(c, x, d) + y
  {
    if c == d {
      assert [""] + (x + y) == ([""] + x) + y;
    } else {
      assert (x + y)[0] == x[0];
      assert (x + y)[1..] == x[1..] + y;
    }
  }

  /** A delimiter between two strings separates their splits exactly. */
  lemma {:induction false} SplitAround(a: string, b: string, d: char)
    ensures Split(a + [d] + b, d) == Split(a, d) + Split(b, d)
    decreases |a|
  {
    var s := a + [d] + b;
    if |a| == 0 {
      assert s == [d] + b;
      assert s[1..] == b;
    } else {
      assert s[0] == a[0] && s[1..] == a[1..] + [d] + b;
      SplitAround(a[1..], b, d);
      PrependAppend(a[0], Split(a[1..], d), Split(b, d), d);
    }
  }

  /** Prepending a character to a split prepends it to the joined string. */
  lemma JoinPrepend(c: char, parts: seq<string>, d: char)
    requires |parts| > 0
    ensures Join(Prepend(c, parts, d), d) == [c] + Join(parts, d)
  {
    var p := Prepend(c, parts, d);
    if c == d {
      assert p[1..] == parts;
    } else if |parts| > 1 {
      assert p[1..] == parts[1..];
    }
  }

  /** Splitting undoes joining: `d.join(s.split(d)) == s`. */
  lemma {:induction false} JoinSplit(s: string, d: char)
    ensures Join(Split(s, d), d) == s
    decreases |s|
  {
    if |s| > 0 {
      JoinSplit(s[1..], d);
      JoinPrepend(s[0], Split(s[1..], d), d);
      assert s == [s[0]] + s[1..];
    }
  }

  /** Joining then splitting yields the splits of the joined elements, concatenated in order. */
  lemma {:induction false} SplitJoin(parts: seq<string>, d: char)
    requires |parts| > 0
    ensures Split(Join(parts, d), d) == SplitAll(parts, d)
    decreases |parts|
  {
    if |parts| == 1 {
      assert SplitAll(parts, d) == Split(parts[0], d) + SplitAll(parts[1..], d);
      assert SplitAll(parts[1..], d) == [];
    } else {
      SplitJoin(parts[1..], d);
      SplitAround(parts[0], Join(parts[1..], d), d);
    }
  }

  /** A delimiter-free string splits into itself alone. */
  lemma {:induction false} SplitWithoutDelimiter(s: string, d: char)
    requires d !in s
    ensures Split(s, d) == [s]
    decreases |s|
  {
    if |s| > 0 {
      assert d !in s[1..] by {
        forall i | 0 <= i < |s[1..]| ensures s[1..][i] != d {
          assert s[1..][i] == s[i + 1];
        }
      }
      SplitWithoutDelimiter(s[1..], d);
      assert s == [s[0]] + s[1..];
    }
  }

  /** Round trip in the other direction: a non-empty list of delimiter-free
      strings is recovered from its join, so `Split(s, d)` is the only such
      list whose join is `s`. */
  lemma {:induction false} SplitJoinRoundTrip(parts: seq<string>, d: char)
    requires |parts| > 0
    requires forall i :: 0 <= i < |parts| ==> d !in parts[i]
    ensures Split(Join(parts, d), d) == parts
    decreases |parts|
  {
    SplitJoin(parts, d);
    if |parts| == 1 {
      SplitWithoutDelimiter(parts[0], d);
      assert SplitAll(parts[1..], d) == [];
    } else {
      SplitJoinRoundTrip(parts[1..], d);
      SplitJoin(parts[1..], d);
      SplitWithoutDelimiter(parts[0], d);
      assert parts == [parts[0]] + parts[1..];
    }
  }
}

=== FILE: whitespace.dfy ===
/**
 This module models Python's argument-less `str.strip()`: it removes every
 leading and trailing character for which `str.isspace()` holds.
 */
module Whitespace {

  /** The characters `str.isspace()` accepts, listed by code point: the ASCII
      controls TAB..CR and FS..US, SPACE, NEL, NO-BREAK SPACE, and the Unicode
      space separators and line/paragraph separators. So the ASCII whitespace
      of C's `isspace` is accepted, no visible ASCII character `!`..`~` is, and
      neither is the zero-width space nor U+00B8 (the converter's default
      delimiter, which stripping therefore never removes). */
  function IsSpace(c: char): (b: bool)
    ensures c == ' ' || c == '\t' || c == '\n' || c == '\r' || c == '\U{000B}' || c == '\U{000C}' ==> b
    ensures '!' <= c <= '~' ==> !b
    ensures c == '\U{200B}' || c == '\U{00B8}' ==> !b
  {
    var n := c as int;
    || 0x09 <= n <= 0x0D
    || 0x1C <= n <= 0x20
    || n == 0x85
    || n == 0xA0
    || n == 0x1680
    || 0x2000 <= n <= 0x200A
    || n == 0x2028
    || n == 0x2029
    || n == 0x202F
    || n == 0x205F
    || n == 0x3000
  }

  /** Every character of `s` is whitespace (vacuously so for the empty string). */
  predicate Blank(s: string)
  {
    forall i :: 0 <= i < |s| ==> IsSpace(s[i])
  }

  /** `s` neither starts nor ends with whitespace. */
  predicate Trimmed(s: string)
  {
    |s| == 0 || (!IsSpace(s[0]) && !IsSpace(s[|s| - 1]))
  }

  /** `s` with its leading whitespace removed. */
  function TrimStart(s: string): (r: string)
    ensures |r| <= |s|
    ensures |r| == 0 || !IsSpace(r[0])
  {
    if |s| > 0 && IsSpace(s[0]) then TrimStart(s[1..]) else s
  }

  /** `s` with its trailing whitespace removed. */
  function TrimEnd(s: string): (r: string)
    ensures |r| <= |s|
    ensures |r| == 0 || !IsSpace(r[|r| - 1])
  {
    if |s| > 0 && IsSpace(s[|s| - 1]) then TrimEnd(s[..|s| - 1]) else s
  }

  /** `TrimStart` keeps a suffix of `s`. */
  lemma {:induction false} TrimStartSuffix(s: string)
    ensures TrimStart(s) == s[|s| - |TrimStart(s)|..]
    decreases |s|
  {
    if |s| > 0 && IsSpace(s[0]) {
      TrimStartSuffix(s[1..]);
      assert s[1..][|s[1..]| - |TrimStart(s[1..])|..] == s[|s| - |TrimStart(s)|..];
    }
  }

  /** `TrimEnd` keeps a prefix of `s`. */
  lemma {:induction false} TrimEndPrefix(s: string)
    ensures TrimEnd(s) == s[..|TrimEnd(s)|]
    decreases |s|
  {
    if |s| > 0 && IsSpace(s[|s| - 1]) {
      var p := s[..|s| - 1];
      TrimEndPrefix(p);
      assert p[..|TrimEnd(p)|] == s[..|TrimEnd(s)|];
    }
  }

  /** Everything `TrimStart` removes is whitespace. */
  lemma {:induction false} TrimStartBlank(s: string)
    ensures Blank(s[..|s| - |TrimStart(s)|])
    decreases |s|
  {
    if |s| > 0 && IsSpace(s[0]) {
      TrimStartBlank(s[1..]);
      var m := |s[1..]| - |TrimStart(s[1..])|;
      forall k | 0 <= k < m + 1 ensures IsSpace(s[k]) {
        if k > 0 {
          assert s[k] == s[1..][..m][k - 1];
        }
      }
    }
  }

  /** Everything `TrimEnd` removes is whitespace. */
  lemma {:induction false} TrimEndBlank(s: string)
    ensures Blank(s[|TrimEnd(s)|..])
    decreases |s|
  {
    if |s| > 0 && IsSpace(s[|s| - 1]) {
      var p := s[..|s| - 1];
      TrimEndBlank(p);
      var n := |TrimEnd(p)|;
      forall k | n <= k < |s| ensures IsSpace(s[k]) {
        if k < |s| - 1 {
          assert s[k] == p[n..][k - n];
        }
      }
    }
  }

  /** Python's `s.strip()`: the middle of `s` between its whitespace margins. */
  function Strip(s: string): (r: string)
    ensures Trimmed(r)
    ensures |r| <= |s|
  {
    TrimEndPrefix(TrimStart(s));
    TrimEnd(TrimStart(s))
  }

  /** `Strip(s)` is the middle slice of `s` that starts after the leading
      whitespace, and both margins around it are blank. */
  lemma StripSlice(s: string)
    ensures var i := |s| - |TrimStart(s)|;
      && i + |Strip(s)| <= |s|
      && Strip(s) == s[i..i + |Strip(s)|]
      && Blank(s[..i])
      && Blank(s[i + |Strip(s)|..])
  {
    var t := TrimStart(s);
    var r := TrimEnd(t);
    var i := |s| - |t|;
    StripMargins(s);
    assert r == s[i..i + |r|] by {
      TrimStartSuffix(s);
      TrimEndPrefix(t);
      assert t == s[i..];
      assert r == t[..|r|];
    }
  }

  /** The two margins `Strip` cuts off are blank. */
  lemma StripMargins(s: string)
    ensures var i := |s| - |TrimStart(s)|;
      && i + |Strip(s)| <= |s|
      && Blank(s[..i])
      && Blank(s[i + |Strip(s)|..])
  {
    var t := TrimStart(s);
    var r := TrimEnd(t);
    var i := |s| - |t|;
    assert Blank(s[..i]) by {
      TrimStartBlank(s);
    }
    assert Blank(s[i + |r|..]) by {
      TrimStartSuffix(s);
      TrimEndBlank(t);
      assert s[i + |r|..] == t[|r|..];
    }
  }

  /** A line strips to nothing exactly when it is all whitespace. */
  lemma StripEmpty(s: string)
    ensures |Strip(s)| == 0 <==> Blank(s)
  {
    var t := TrimStart(s);
    var r := TrimEnd(t);
    var i := |s| - |t|;
    TrimStartSuffix(s);
    if |r| == 0 {
      TrimStartBlank(s);
      TrimEndBlank(t);
      assert s[i..] == t;
      BlankConcat(s, i);
    } else {
      TrimEndPrefix(t);
      assert s[i] == t[0] == r[0];
    }
  }

  /** A string is blank when both sides of any cut are. */
  lemma {:induction false} BlankConcat(s: string, i: nat)
    requires i <= |s| && Blank(s[..i])
    ensures Blank(s[i..]) ==> Blank(s)
  {
    if Blank(s[i..]) {
      forall k | 0 <= k < |s| ensures IsSpace(s[k]) {
        if k < i {
          assert s[k] == s[..i][k];
        } else {
          assert s[k] == s[i..][k - i];
        }
      }
    }
  }

  /** Stripping is determined by its shape: any non-empty trimmed middle
      slice of `s` whose margins are blank is `Strip(s)`. */
  lemma StripUnique(s: string, i: nat, j: nat)
    requires i < j <= |s|
    requires Blank(s[..i]) && Blank(s[j..])
    requires Trimmed(s[i..j])
    ensures Strip(s) == s[i..j]
  {
    StripSlice(s);
    var r := Strip(s);
    var i' := |s| - |TrimStart(s)|;
    var j' := i' + |r|;
    assert !IsSpace(s[i]) && !IsSpace(s[j - 1]) by {
      assert s[i] == s[i..j][0];
      assert s[j - 1] == s[i..j][j - i - 1];
    }
    assert |r| > 0 by {
      SpaceAt(s, i);
    }
    assert !IsSpace(s[i']) && !IsSpace(s[j' - 1]) by {
      assert s[i'] == r[0];
      assert s[j' - 1] == r[|r| - 1];
    }
    assert i' == i;
    assert j' == j;
  }

  /** A single position of a blank string holds whitespace. */
  lemma SpaceAt(s: string, k: nat)
    requires k < |s|
    ensures Blank(s) ==> IsSpace(s[k])
  {
  }

  /** Stripping twice is stripping once. */
  lemma {:induction false} StripIdempotent(s: string)
    ensures Strip(Strip(s)) == Strip(s)
  {
    var r := Strip(s);
    if |r| > 0 {
      assert r[..0] == "" && r[|r|..] == "";
      StripUnique(r, 0, |r|);
      assert r[0..|r|] == r;
    }
  }
}
